=== FILE: README.md ===
# Student analytics portal — a verified model of the student-record lifecycle

The portal lets a teacher upload assignment files and performance figures for
students, predict whether a student is at risk with a pre-trained classifier,
and lets students log in and see their own files and results. Behind its web
pages and cloud clients, its logic is a lifecycle of student items in one
key-value table keyed by `StudentID`. This project models that lifecycle in
Dafny and proves what each action does to the table.

- `Values` (values.dfy): an item is an open `map<string, Value>` with
  `Value = Str | Int`; Python's `dict.get`, `str()` and `float()` on stored values.
- `RecordStore` (record_store.dfy): the table is a subset type `Table`. Every
  item sits under its own non-empty `StudentID`. `GetItem`, `PutItem` and the
  `IsScanOf` predicate (one full scan, in any order) work on it. Because every
  action returns a `Table`, each action proves that it keeps this invariant.
- `ObjectStore` (object_store.dfy): the assignment bucket and the derived
  object key `assignments/{id}_{file}`.
- `LoginGate` (login_gate.dfy): the teacher credential and the student
  password check, with the session state they set.
- `AssignmentUpload` (assignment_upload.dfy): both upload pages.
  `Dashboard` is main_app.py; `Standalone` is teacher_upload_app.py.
- `Performance` (performance.dfy): the performance update.
- `RiskPredictor` (risk_predictor.dfy): the attendance adjustment, the
  feature row, the label mapping and the write-back. The classifier is an
  uninterpreted `seq<int> -> int`.
- `StudentViews` (student_views.dfy): the dashboard's two student tabs and
  the standalone viewer page.
- `Roster` (roster.dfy): the safe and at-risk counts under the teacher's roster.
- `Lifecycle` (lifecycle.dfy): how the actions compose.

Each action is a pure function from the table (and the bucket) plus its
inputs to the new state and an outcome, so its read and its upsert form one
atomic step. The outcomes mirror the messages the
pages show. Failures of external calls are boolean inputs: `readFails`,
`putFails`, `objectFails`, `loadFails` and `predictFails`. Timestamps are
string inputs.

Three behaviours of the code are easy to miss:
- The upload does not merge into the prior item. It builds a fresh item from a
  fixed field list, so any field outside that list is dropped. The dashboard's
  list has 13 fields and the standalone page's list has 11.
- Any classifier output other than 1 reads as "At Risk / Fail".
- The standalone viewer lists every item of the student, with no filter on `Type`.

## Model

| member | source | states |
|---|---|---|
| Values.IntegerTextRoundTrip | main_app.py:228-229 | `float()` of the text of a stored integer gives that integer back, so a number stored as text converts to the same marks or attendance |
| Values.NatDecimalRoundTrip | main_app.py:83 | the decimal spelling `str()` gives a non-negative number is a non-empty run of digits that reads back as the number; negative numbers, spelled with a leading "-", are covered by `Values.IntegerTextRoundTrip` |
| RecordStore.GetItem | main_app.py:81-82 | a read fails exactly on a transport error or an empty key; otherwise it finds an item iff the key is stored, and that item is exactly the stored one, naming its key |
| RecordStore.PutItem | main_app.py:143 | an upsert succeeds iff there is no transport error and the item carries a non-empty StudentID; it adds exactly that key, stores the item under it unchanged, and leaves every other stored item as it was |
| RecordStore.PutThenGet | main_app.py:177 | reading back after an upsert returns the item written under its key, and every other key reads as before |
| RecordStore.ScannedItemKey | main_app.py:292-293 | every item a scan returns is stored under the StudentID it carries |
| ObjectStore.ObjectKeyCollides | main_app.py:118 | the derived key is not injective: ("a", "b_c.pdf") and ("a_b", "c.pdf") give the same object |
| ObjectStore.UnescapeEscape | main_app.py:118 | the escaped spelling of a student ID used by the corrected key decodes back to the ID |
| ObjectStore.SafeObjectKeyInjective | main_app.py:118 | the corrected key determines both the student ID and the file name |
| LoginGate.Login | main_app.py:70-90 | teacher login succeeds iff the pair is ("teacher01", "pass123"); student login succeeds iff the read works, the item exists and the password equals `str(Password)` (missing is ""); success sets the role (and for a student the ID); failure leaves the session unchanged; read errors are reported apart |
| LoginGate.StudentLoginSound | main_app.py:81-88 | a successful student login names an existing non-empty ID, and every other password is rejected for it |
| LoginGate.TeacherLoginIgnoresTable | main_app.py:71-77 | the teacher gate gives the same result for any table and any read failure |
| AssignmentUpload.MergedItem | main_app.py:128-142 | the dashboard item has exactly 13 fields and the standalone item exactly 11; the item is keyed by the uploading student's ID; the form's name wins over the stored name, which wins over "Unknown"; FileName, FilePath (the object key), Type "Assignment", UploadDate and LastUpdated are the upload's own values |
| AssignmentUpload.Upload | main_app.py:113-148 | without an ID or a file: a warning, and no object or item written; a failed object upload writes nothing; otherwise the file goes under `assignments/{id}_{file}`; the item write succeeds iff the upsert does, and it is a single upsert of the merged item under the ID (a failed prior read counts as no prior item); a failed upsert leaves the table unchanged but the object stored; "Upload failed" is shown exactly when an ID and a file were given and the object upload or the upsert failed |
| AssignmentUpload.StandaloneUploadGuard | teacher_upload_app.py:22-61 | standalone page: no ID or no file only warns and writes nothing; otherwise the object key is `assignments/{id}_{file}`, and FilePath equals it |
| AssignmentUpload.MergeCarriesProfile | main_app.py:128-142 | Password, Marks, Attendance and Status are carried over with defaults "", 0, 0, "NA"; on the dashboard, RiskStatus and LastPredicted are carried over too, with defaults "NA" and "" |
| AssignmentUpload.DashboardUploadPreservesFields | main_app.py:121-143 | for a prior item holding only the portal's fields, the dashboard upload keeps every field it does not set itself |
| AssignmentUpload.StandaloneUploadDropsPrediction | teacher_upload_app.py:38-50 | the standalone item never holds RiskStatus or LastPredicted |
| AssignmentUpload.StandaloneUploadLosesRiskStatus | teacher_upload_app.py:31-53 | concrete case: a student labelled "At Risk / Fail" loses the label on a standalone upload |
| AssignmentUpload.VariantsAgreeOnCommonFields | teacher_upload_app.py:38-50 | the standalone item is the dashboard item minus the two prediction fields |
| AssignmentUpload.FailedReadActsAsAbsent | main_app.py:122-126 | an upload whose prior read fails writes exactly the item a first upload would |
| AssignmentUpload.FirstUploadDefaults | main_app.py:128-143 | a first upload adds exactly one key; the item has Name = the entered name or "Unknown", Password "", Marks 0, Attendance 0, Status "NA", Type "Assignment" and FilePath = the object key (and RiskStatus "NA", LastPredicted "" on the dashboard) |
| AssignmentUpload.RepeatedUploadOverwrites | main_app.py:118-143 | a second upload of the same file name overwrites the same object, adds no item and refreshes LastUpdated |
| Performance.UpdatePerformance | main_app.py:160-180 | an empty ID only warns; a missing item only warns; a read or write failure reports an error; in all three cases nothing is written; a successful update changes only this student's item, adds at most the five fields, keeps every other field and sets Marks, Attendance, Status, Type = "Performance" and LastUpdated |
| Performance.UpdateThenRead | main_app.py:165-177 | reading back after an update gives the prior item with exactly the five fields overwritten |
| Performance.UpdateIdempotent | main_app.py:170-177 | the same update applied twice leaves what one application left |
| RiskPredictor.AdjustedAttendance | main_app.py:236-241 | with a certificate, the adjusted attendance is never negative, never above a non-negative stored value, and equals attendance − 30 above 30 and 0 at or below it; without one it is the stored value |
| RiskPredictor.Features | main_app.py:249-250 | the classifier row is `[marks, adjusted attendance, medical flag]`, in that order |
| RiskPredictor.RiskLabel | main_app.py:256-261 | the label is "Safe / Pass" iff the output is 1, and "At Risk / Fail" otherwise |
| RiskPredictor.Predict | main_app.py:218-278 | the fetch-or-conversion error is reported exactly on a read failure, an empty ID, or a stored item whose Marks or Attendance do not convert; the model-load error exactly when the numbers convert and loading fails; the prediction error exactly when loading succeeds and prediction or the write-back fails; a missing item, a read or conversion failure, a model-load failure, a predict failure or a write failure all write nothing; a success reports the label of the classifier on the feature row of the stored marks and attendance, with the inputs used, and writes the fetched item back with only RiskStatus and LastPredicted set |
| RiskPredictor.PredictionFrame | main_app.py:263-266 | the write-back keeps every other student and every other field of this student; it adds at most RiskStatus and LastPredicted |
| RiskPredictor.PredictionDependsOnlyOnInputs | main_app.py:228-254 | two tables that agree on the student's stored Marks and Attendance give the same outcome, whatever the timestamp |
| RiskPredictor.AdjustmentExamples | main_app.py:236-250 | attendance 20 with a certificate is used as 0; 90 is used as 60; marks 40 and attendance 85 without a certificate give the row [40, 85, 0] |
| StudentViews.Select | main_app.py:294-296 | the listing holds exactly the scanned items with the student's ID (and the Type condition), and no more items than the scan |
| StudentViews.SelectConcat | student_view_app.py:26 | filtering keeps scan order: the filter of a concatenation is the concatenation of the filters |
| StudentViews.TabsPartitionStudentItems | main_app.py:321 | each of the student's items is in exactly one of the two dashboard tabs |
| StudentViews.ScanHoldsOneItemPerStudent | student_view_app.py:24-26 | over a full scan, the student's filter yields exactly the one stored item, or nothing when the ID is absent |
| StudentViews.PageHoldsAtMostOneItemPerStudent | student_view_app.py:24-26 | over any single scan page, which may hold only part of the table, the student's filter yields at most one item, and only the one stored under the student's ID |
| StudentViews.AssignmentsTabView | main_app.py:288-302 | the "no assignments" info appears iff no scanned item is an assignment of the student; otherwise one entry per such item, in scan order, with FileName defaulting to "Unknown" and FilePath to "" |
| StudentViews.PerformanceTabView | main_app.py:315-327 | the "no performance data" info appears iff no scanned item of the student has another Type; otherwise one row per such item, showing only Marks, Attendance, Status and LastUpdated, so RiskStatus never appears |
| StudentViews.ViewerPageView | student_view_app.py:19-35 | the warning is shown iff the ID is empty, and the file listing iff the ID is non-empty and some scanned item has it; otherwise "no assignments" iff no scanned item has the ID; otherwise the count equals the number of entries, one per item of the student in scan order, with no Type filter and with FileName defaulting to "Unknown" and FilePath to "" |
| Roster.RosterOf | main_app.py:186-207 | an empty scan shows "no records"; otherwise the tally holds the number of scanned items labelled "Safe / Pass" and the number labelled "At Risk / Fail", which together never exceed the number of items |
| Roster.TallyBounded | main_app.py:205-206 | safe count + at-risk count ≤ number of scanned items |
| Roster.TallyIgnoresOrder | main_app.py:205-206 | the counts are the same for any order of the same scanned items |
| Roster.TallyMatchesTable | main_app.py:186-206 | over a full scan, each count equals the number of students whose stored RiskStatus is that label |
| Roster.RosterCountsTableStudents | main_app.py:186-207 | over a full scan of a non-empty table, the roster shows the number of stored students labelled safe and the number labelled at risk |
| Lifecycle.FirstUploadOpensWithEmptyPassword | main_app.py:81-88 | after a first upload creates a student, the student login opens with the empty password and with no other |
| Lifecycle.PerformanceUpdateHidesAssignment | main_app.py:294-296 | after a performance update, the dashboard's assignments tab is empty for that student, though the item still names the uploaded file |
| Lifecycle.UploadHidesPerformance | main_app.py:321 | after a dashboard upload, the dashboard's performance tab is empty for that student |
| Lifecycle.PredictionAcrossUploads | teacher_upload_app.py:38-53 | a prediction survives a later dashboard upload, but a later standalone upload erases RiskStatus and LastPredicted |

## Findings

| source | as written | input that shows it | evidently intended | confidence | as-written member | corrected member |
|---|---|---|---|---|---|---|
| teacher_upload_app.py:38-50 | the standalone upload's merged item lists 11 fields and leaves out RiskStatus and LastPredicted | a student predicted "At Risk / Fail" on the dashboard, then given a file on the standalone page, loses the label | carry the prediction fields over, as the dashboard's upload does (main_app.py:140-141) | medium; not executed | AssignmentUpload.StandaloneUploadLosesRiskStatus | AssignmentUpload.DashboardUploadPreservesFields |
| main_app.py:118 | object key `assignments/{id}_{file}` (same at teacher_upload_app.py:26) | student "a" uploads "b_c.pdf", then student "a_b" uploads "c.pdf": both items point at `assignments/a_b_c.pdf`, which now holds the second file | distinct (student, file) pairs get distinct objects | medium (only IDs containing `_` are affected); not executed | ObjectStore.ObjectKeyCollides | ObjectStore.SafeObjectKeyInjective |

The upload actions keep the key as the code derives it, because that key is
what ends up in FilePath. `ObjectStore.SafeObjectKey` is the corrected key:
it percent-escapes `%` and `_` in the ID, and it is proved injective.

## Left out

- Page rendering, reruns, tabs, styling and charts are left out: they are presentation only.
- `logout` (main_app.py:31-36) is left out: it clears the session state, which is session plumbing.
- `load_model_safe` (main_app.py:39-58) is left out: its temporary file and deserialisation are file I/O and foreign calls. Its failure is the `loadFails` input, and the loaded model is the `classify` parameter.
- The cloud clients are replaced by the in-memory `Table` and `Objects`. Transport and permission errors are the failure inputs; the credentials error is one more "Upload failed" outcome.
- The record store's refusal of an empty key is modelled as a read or write failure. Scan failures in the views and the roster are left out: they only change the message shown.
- Timestamps from `utcnow().isoformat()` are opaque string inputs. The dashboard upload's two separate clock reads are two inputs.
- Floating point is left out. Marks and attendance are integers. `float()` of a stored string accepts only an optional sign followed by digits; other spellings Python accepts (spaces, fractions, exponents, `inf`, `nan`) count as a conversion failure here.
- The performance tab's averages and feedback thresholds, and its chart (main_app.py:328-356), are left out: they are float and display concerns.
- The roster's sort by StudentID and its row colouring (main_app.py:191-203) are left out: they are display only.
- Presigned download links and URL quoting (main_app.py:304-310, student_view_app.py:37-48) are left out: they wrap libraries not shown here.
- The form widgets' 0–100 bounds on marks and attendance (main_app.py:154-157) are left out: they belong to the widgets. `Performance.UpdatePerformance` accepts any integers.
- The scan is an input list related to the table by `IsScanOf`, because the table's scan order is unspecified.
- Scan paging is left out: the model assumes the table fits in one scan page. The record store returns a scan in pages of at most 1 MB, and the code reads only the first page (main_app.py:186, 292, 319; student_view_app.py:24). `IsScanOf` therefore describes a complete scan. `IsPageOf` describes a single page, and `StudentViews.PageHoldsAtMostOneItemPerStudent` states what still holds for one.
- Interleaving between sessions is left out: each action's read and its upsert are one atomic step. In the code they are two separate store calls with no condition on the write, so the last writer wins. The pairs are the prediction's read and write-back (main_app.py:221, 266), which has the model download (main_app.py:244) between them; the performance update (main_app.py:165, 177); and the upload (main_app.py:123, 143). For example, a performance update that commits while a prediction for the same student is loading its model is undone by the prediction's write-back of the item it read earlier. `RiskPredictor.PredictionFrame` and `Performance.UpdateThenRead` hold only when no other write lands between the two calls.

=== FILE: assignment_upload.dfy ===
/**
 * Assignment upload, in its two versions: the dashboard's upload tab
 * (main_app.py) and the standalone upload page (teacher_upload_app.py).
 * Both store the file, read the prior item, and upsert a merged item; the
 * dashboard carries the prediction fields over, the standalone page does not.
 */
module AssignmentUpload {
  import opened Wrappers
  import opened Values
  import opened RecordStore
  import opened ObjectStore

  /** Which page performs the upload. */
  datatype Variant = Dashboard | Standalone

  datatype UploadedFile = UploadedFile(name: string, content: Bytes)

  /** The "Please enter Student ID ..." warning; success; the "Upload failed" error. */
  datatype UploadOutcome = MissingInput | Saved | UploadFailed

  datatype UploadResult = UploadResult(table: Table, objects: Objects, outcome: UploadOutcome)

  /** The fields both pages write. */
  const CommonFields: set<string> := {"StudentID", "Name", "Password", "Marks", "Attendance", "Status",
                                      "FileName", "FilePath", "Type", "UploadDate", "LastUpdated"}

  /** The prediction fields only the dashboard carries over. */
  const PredictionFields: set<string> := {"RiskStatus", "LastPredicted"}

  /** The fields each page's item holds. */
  function FieldsOf(v: Variant): set<string> {
    if v == Dashboard then CommonFields + PredictionFields else CommonFields
  }

  /** `name or old.get("Name", "Unknown")`: a non-empty entered name wins, then the stored one. */
  function MergedName(name: string, prior: Record): Value {
    if name != "" then Str(name) else GetOr(prior, "Name", Str("Unknown"))
  }

  /**
   * The value an upload writes into field `f`: the upload's own data, or the
   * prior item's value with its default.
   */
  function MergedField(f: string, id: string, name: string, fileName: string, prior: Record,
                       uploadDate: string, lastUpdated: string): Value
    requires f in FieldsOf(Dashboard)
  {
    if f == "StudentID" then Str(id)
    else if f == "Name" then MergedName(name, prior)
    else if f == "Password" then GetOr(prior, "Password", Str(""))
    else if f == "Marks" then GetOr(prior, "Marks", Int(0))
    else if f == "Attendance" then GetOr(prior, "Attendance", Int(0))
    else if f == "Status" then GetOr(prior, "Status", Str("NA"))
    else if f == "FileName" then Str(fileName)
    else if f == "FilePath" then Str(ObjectKey(id, fileName))
    else if f == "Type" then Str("Assignment")
    else if f == "UploadDate" then Str(uploadDate)
    else if f == "LastUpdated" then Str(lastUpdated)
    else if f == "RiskStatus" then GetOr(prior, "RiskStatus", Str("NA"))
    else GetOr(prior, "LastPredicted", Str(""))
  }

  /** The item an upload writes, given the prior item `prior` (empty when there was none). */
  function MergedItem(v: Variant, id: string, name: string, fileName: string, prior: Record,
                      uploadDate: string, lastUpdated: string): (item: Record)
    ensures item.Keys == FieldsOf(v)
    ensures item[KeyField] == Str(id)
    ensures id != "" ==> ItemKey(item) == Some(id)
    ensures item["Name"] == (if name != "" then Str(name) else GetOr(prior, "Name", Str("Unknown")))
    ensures item["FileName"] == Str(fileName)
    ensures item["FilePath"] == Str(ObjectKey(id, fileName))
    ensures item["Type"] == Str("Assignment")
    ensures item["UploadDate"] == Str(uploadDate)
    ensures item["LastUpdated"] == Str(lastUpdated)
  {
    map f | f in FieldsOf(v) :: MergedField(f, id, name, fileName, prior, uploadDate, lastUpdated)
  }

  /**
   * The upload button. `objectFails`, `readFails` and `putFails` say which of
   * the bucket upload, the prior-item read and the item upsert fail.
   */
  function Upload(v: Variant, t: Table, objects: Objects, id: string, name: string, file: Option<UploadedFile>,
                  uploadDate: string, lastUpdated: string,
                  objectFails: bool, readFails: bool, putFails: bool): (r: UploadResult)
    ensures id == "" || file.None? ==> r == UploadResult(t, objects, MissingInput)
    ensures r.outcome == Saved <==> id != "" && file.Some? && !objectFails && !putFails
    ensures r.outcome == UploadFailed <==> id != "" && file.Some? && (objectFails || putFails)
    ensures id != "" && file.Some? && !objectFails ==>
      r.objects == objects[ObjectKey(id, file.value.name) := file.value.content]
    ensures id != "" && file.Some? && objectFails ==> r.objects == objects
    ensures r.outcome != Saved ==> r.table == t
    ensures r.outcome == Saved ==>
      r.table == t[id := MergedItem(v, id, name, file.value.name,
                                    if !readFails && id in t then t[id] else map[], uploadDate, lastUpdated)]
  {
    if id == "" || file.None? then UploadResult(t, objects, MissingInput)
    else if objectFails then UploadResult(t, objects, UploadFailed)
    else
      var key := ObjectKey(id, file.value.name);
      var objects' := PutObject(objects, key, file.value.content);
      var prior := ItemOrEmpty(GetItem(t, id, readFails));
      var item := MergedItem(v, id, name, file.value.name, prior, uploadDate, lastUpdated);
      match PutItem(t, item, putFails)
      case None => UploadResult(t, objects', UploadFailed)
      case Some(t') => UploadResult(t', objects', Saved)
  }

  /**
   * The standalone page's guard and key: without a student ID or a file it only
   * warns; otherwise the file goes under the derived key, which is also the
   * item's FilePath.
   */
  lemma StandaloneUploadGuard(t: Table, objects: Objects, id: string, name: string, file: Option<UploadedFile>,
                              uploadDate: string, lastUpdated: string, readFails: bool)
    ensures var r := Upload(Standalone, t, objects, id, name, file, uploadDate, lastUpdated, false, readFails, false);
      && (id == "" || file.None? ==> r.outcome == MissingInput && r.table == t && r.objects == objects)
      && (id != "" && file.Some? ==>
            && r.outcome == Saved
            && r.objects == objects[ObjectKey(id, file.value.name) := file.value.content]
            && r.table[id]["FilePath"] == Str(ObjectKey(id, file.value.name))
            && r.table[id]["FileName"] == Str(file.value.name))
  {
  }

  /**
   * Carry-over: the password, marks, attendance and status of the prior item
   * survive an upload on both pages, and on the dashboard so do the risk
   * status and prediction time; absent fields take their defaults.
   */
  lemma MergeCarriesProfile(v: Variant, id: string, name: string, fileName: string, prior: Record,
                            uploadDate: string, lastUpdated: string)
    ensures var item := MergedItem(v, id, name, fileName, prior, uploadDate, lastUpdated);
      && item["Password"] == GetOr(prior, "Password", Str(""))
      && item["Marks"] == GetOr(prior, "Marks", Int(0))
      && item["Attendance"] == GetOr(prior, "Attendance", Int(0))
      && item["Status"] == GetOr(prior, "Status", Str("NA"))
      && (v == Dashboard ==> item["RiskStatus"] == GetOr(prior, "RiskStatus", Str("NA")))
      && (v == Dashboard ==> item["LastPredicted"] == GetOr(prior, "LastPredicted", Str("")))
  {
  }

  /** The fields an upload sets itself; every other known field is kept from the prior item. */
  function WrittenBy(name: string): set<string> {
    {"FileName", "FilePath", "Type", "UploadDate", "LastUpdated"} + (if name != "" then {"Name"} else {})
  }

  /**
   * The dashboard's upload preserves every field of the prior item that it does
   * not set itself, as long as the prior item holds only the portal's fields.
   */
  lemma DashboardUploadPreservesFields(id: string, name: string, fileName: string, prior: Record,
                                       uploadDate: string, lastUpdated: string)
    requires prior.Keys <= FieldsOf(Dashboard)
    requires "StudentID" in prior ==> prior["StudentID"] == Str(id)
    ensures var item := MergedItem(Dashboard, id, name, fileName, prior, uploadDate, lastUpdated);
      forall f :: f in prior && f !in WrittenBy(name) ==> item[f] == prior[f]
  {
  }

  /** The standalone page drops the prediction fields an item held before. */
  lemma StandaloneUploadDropsPrediction(id: string, name: string, fileName: string, prior: Record,
                                        uploadDate: string, lastUpdated: string)
    ensures var item := MergedItem(Standalone, id, name, fileName, prior, uploadDate, lastUpdated);
      "RiskStatus" !in item && "LastPredicted" !in item
  {
  }

  /** A concrete case: a student predicted "At Risk / Fail" loses that status on a standalone upload. */
  lemma StandaloneUploadLosesRiskStatus(objects: Objects, content: Bytes)
    ensures var t: Table := map["s1" := map["StudentID" := Str("s1"), "RiskStatus" := Str("At Risk / Fail")]];
      var r := Upload(Standalone, t, objects, "s1", "", Some(UploadedFile("hw.pdf", content)),
                      "2024-01-01", "2024-01-01", false, false, false);
      r.outcome == Saved && "RiskStatus" !in r.table["s1"]
  {
  }

  /** Apart from the two prediction fields, the two pages write the same item. */
  lemma VariantsAgreeOnCommonFields(id: string, name: string, fileName: string, prior: Record,
                                    uploadDate: string, lastUpdated: string)
    ensures MergedItem(Standalone, id, name, fileName, prior, uploadDate, lastUpdated)
         == MergedItem(Dashboard, id, name, fileName, prior, uploadDate, lastUpdated) - PredictionFields
  {
  }

  /** A failed prior-item read during upload writes exactly what a first upload would. */
  lemma FailedReadActsAsAbsent(v: Variant, t: Table, objects: Objects, id: string, name: string,
                               file: Option<UploadedFile>, uploadDate: string, lastUpdated: string)
    requires Upload(v, t, objects, id, name, file, uploadDate, lastUpdated, false, true, false).outcome == Saved
    ensures Upload(v, t, objects, id, name, file, uploadDate, lastUpdated, false, true, false).table[id]
         == Upload(v, t - {id}, objects, id, name, file, uploadDate, lastUpdated, false, false, false).table[id]
  {
  }

  /**
   * First upload for a student: the item is created with the documented
   * defaults, and the table gains exactly that one key.
   */
  lemma FirstUploadDefaults(v: Variant, t: Table, objects: Objects, id: string, name: string,
                            file: Option<UploadedFile>, uploadDate: string, lastUpdated: string, readFails: bool)
    requires id !in t
    requires Upload(v, t, objects, id, name, file, uploadDate, lastUpdated, false, readFails, false).outcome == Saved
    ensures var t' := Upload(v, t, objects, id, name, file, uploadDate, lastUpdated, false, readFails, false).table;
      && t'.Keys == t.Keys + {id}
      && t'[id]["Name"] == Str(if name == "" then "Unknown" else name)
      && t'[id]["Password"] == Str("") && t'[id]["Marks"] == Int(0) && t'[id]["Attendance"] == Int(0)
      && t'[id]["Status"] == Str("NA") && t'[id]["Type"] == Str("Assignment")
      && t'[id]["FilePath"] == Str(ObjectKey(id, file.value.name))
      && (v == Dashboard ==> t'[id]["RiskStatus"] == Str("NA") && t'[id]["LastPredicted"] == Str(""))
  {
  }

  /** Uploading the same file name again overwrites the same object and adds no item. */
  lemma RepeatedUploadOverwrites(v: Variant, t: Table, objects: Objects, id: string, name: string,
                                 file1: UploadedFile, file2: UploadedFile,
                                 d1: string, l1: string, d2: string, l2: string)
    requires file1.name == file2.name
    requires Upload(v, t, objects, id, name, Some(file1), d1, l1, false, false, false).outcome == Saved
    ensures var r1 := Upload(v, t, objects, id, name, Some(file1), d1, l1, false, false, false);
      var r2 := Upload(v, r1.table, r1.objects, id, name, Some(file2), d2, l2, false, false, false);
      && r2.outcome == Saved
      && r2.table.Keys == r1.table.Keys
      && r2.objects.Keys == r1.objects.Keys
      && r2.objects[ObjectKey(id, file1.name)] == file2.content
      && r2.table[id]["LastUpdated"] == Str(l2)
  {
  }
}

=== FILE: lifecycle.dfy ===
/**
 * How the actions compose over one table: what a first upload lets a student
 * do, how the Type tag splits the dashboard's student tabs, and how the two
 * upload pages treat a prediction made earlier.
 */
module Lifecycle {
  import opened Wrappers
  import opened Values
  import opened RecordStore
  import opened ObjectStore
  import opened LoginGate
  import opened AssignmentUpload
  import opened Performance
  import opened RiskPredictor
  import opened StudentViews

  /**
   * A student created by a first upload has the empty password: the student
   * login opens with "" and with nothing else.
   */
  lemma FirstUploadOpensWithEmptyPassword(v: Variant, t: Table, objects: Objects, id: string, name: string,
                                          file: Option<UploadedFile>, uploadDate: string, lastUpdated: string,
                                          readFails: bool, s: Session, password: string)
    requires id !in t
    requires Upload(v, t, objects, id, name, file, uploadDate, lastUpdated, false, readFails, false).outcome == Saved
    ensures var t' := Upload(v, t, objects, id, name, file, uploadDate, lastUpdated, false, readFails, false).table;
      Login(s, t', Student, id, password, false).outcome == (if password == "" then Welcome else Rejected)
  {
  }

  /**
   * One item per student, tagged by the last writer: after a performance
   * update the dashboard's assignments tab is empty for that student, even
   * though the item still names the uploaded file.
   */
  lemma PerformanceUpdateHidesAssignment(t: Table, id: string, marks: int, attendance: int, status: Status,
                                         now: string, items: seq<Record>)
    requires UpdatePerformance(t, id, marks, attendance, status, now, false, false).outcome == Updated
    requires IsScanOf(UpdatePerformance(t, id, marks, attendance, status, now, false, false).table, items)
    ensures AssignmentsTabView(items, id) == NoAssignments
    ensures "FileName" in t[id] ==>
      "FileName" in UpdatePerformance(t, id, marks, attendance, status, now, false, false).table[id]
  {
  }

  /** Symmetrically, after an upload the dashboard's performance tab is empty for that student. */
  lemma UploadHidesPerformance(t: Table, objects: Objects, id: string, name: string, file: Option<UploadedFile>,
                               uploadDate: string, lastUpdated: string, readFails: bool, items: seq<Record>)
    requires Upload(Dashboard, t, objects, id, name, file, uploadDate, lastUpdated, false, readFails, false).outcome == Saved
    requires IsScanOf(Upload(Dashboard, t, objects, id, name, file, uploadDate, lastUpdated, false, readFails, false).table, items)
    ensures PerformanceTabView(items, id) == NoPerformance
  {
  }

  /**
   * A prediction survives a later dashboard upload, but a later upload from
   * the standalone page erases it.
   */
  lemma PredictionAcrossUploads(t: Table, objects: Objects, id: string, medical: bool, classify: seq<int> -> int,
                                predictedAt: string, name: string, file: UploadedFile,
                                uploadDate: string, lastUpdated: string)
    requires Predict(t, id, medical, classify, predictedAt, false, false, false, false).outcome.Predicted?
    ensures var p := Predict(t, id, medical, classify, predictedAt, false, false, false, false);
      var dash := Upload(Dashboard, p.table, objects, id, name, Some(file), uploadDate, lastUpdated, false, false, false);
      var solo := Upload(Standalone, p.table, objects, id, name, Some(file), uploadDate, lastUpdated, false, false, false);
      && dash.outcome == Saved && solo.outcome == Saved
      && dash.table[id]["RiskStatus"] == Str(p.outcome.risk)
      && dash.table[id]["LastPredicted"] == Str(predictedAt)
      && "RiskStatus" !in solo.table[id] && "LastPredicted" !in solo.table[id]
  {
    var p := Predict(t, id, medical, classify, predictedAt, false, false, false, false);
    var predicted := p.table[id];
    assert predicted == WithPrediction(t[id], p.outcome.risk, predictedAt);
    assert id in p.table;
    var dash := Upload(Dashboard, p.table, objects, id, name, Some(file), uploadDate, lastUpdated, false, false, false);
    assert dash.table[id] == MergedItem(Dashboard, id, name, file.name, predicted, uploadDate, lastUpdated);
    MergeCarriesProfile(Dashboard, id, name, file.name, predicted, uploadDate, lastUpdated);
    var solo := Upload(Standalone, p.table, objects, id, name, Some(file), uploadDate, lastUpdated, false, false, false);
    assert solo.table[id] == MergedItem(Standalone, id, name, file.name, predicted, uploadDate, lastUpdated);
    StandaloneUploadDropsPrediction(id, name, file.name, predicted, uploadDate, lastUpdated);
  }
}

=== FILE: login_gate.dfy ===
/**
 * The login gate of the dashboard: a fixed teacher credential, and a
 * student login checked against the password stored in the student's item.
 */
module LoginGate {
  import opened Wrappers
  import opened Values
  import opened RecordStore

  const TeacherId := "teacher01"
  const TeacherPassword := "pass123"
  const PasswordField := "Password"

  datatype Role = Teacher | Student

  /** The session state the dashboard keeps: `role` and `student_id`. */
  datatype Session = Session(role: Option<Role>, studentId: Option<string>)

  /** Welcome; the "Invalid ... ID or password" error; the "Error checking credentials" error. */
  datatype LoginOutcome = Welcome | Rejected | CheckError

  datatype LoginResult = LoginResult(session: Session, outcome: LoginOutcome)

  /** `str(item.get("Password", ""))`: a student never given a password has the empty one. */
  function StoredPassword(rec: Record): string {
    ToText(GetOr(rec, PasswordField, Str("")))
  }

  /** The Login button. */
  function Login(s: Session, t: Table, role: Role, userId: string, password: string, readFails: bool): (r: LoginResult)
    ensures role == Teacher ==>
      (r.outcome == Welcome <==> userId == TeacherId && password == TeacherPassword)
    ensures role == Student ==>
      (r.outcome == Welcome <==> !readFails && userId in t && password == StoredPassword(t[userId]))
    ensures r.outcome == CheckError <==> role == Student && (readFails || userId == "")
    ensures r.outcome == Welcome && role == Teacher ==> r.session == s.(role := Some(Teacher))
    ensures r.outcome == Welcome && role == Student ==> r.session == Session(Some(Student), Some(userId))
    ensures r.outcome != Welcome ==> r.session == s
  {
    match role
    case Teacher =>
      if userId == TeacherId && password == TeacherPassword then LoginResult(s.(role := Some(Teacher)), Welcome)
      else LoginResult(s, Rejected)
    case Student =>
      match GetItem(t, userId, readFails)
      case ReadFailed => LoginResult(s, CheckError)
      case Fetched(item) =>
        if item.Some? && item.value != map[] && password == StoredPassword(item.value) then
          LoginResult(Session(Some(Student), Some(userId)), Welcome)
        else
          LoginResult(s, Rejected)
  }

  /** A successful student login names an existing student, and only the stored password opens it. */
  lemma StudentLoginSound(s: Session, t: Table, userId: string, password: string, readFails: bool)
    requires Login(s, t, Student, userId, password, readFails).outcome == Welcome
    ensures userId != "" && userId in t
    ensures forall other :: other != password ==> Login(s, t, Student, userId, other, readFails).outcome == Rejected
  {
  }

  /** The teacher gate never looks at the table. */
  lemma TeacherLoginIgnoresTable(s: Session, t1: Table, t2: Table, userId: string, password: string, f1: bool, f2: bool)
    ensures Login(s, t1, Teacher, userId, password, f1) == Login(s, t2, Teacher, userId, password, f2)
  {
  }
}

=== FILE: object_store.dfy ===
/**
 * The assignment bucket: uploaded files live under a key derived from the
 * student ID and the original file name.
 */
module ObjectStore {

  type Bytes = seq<bv8>

  /** The bucket's contents, by object key. */
  type Objects = map<string, Bytes>

  const AssignmentPrefix := "assignments/"

  /** `f"assignments/{student_id}_{file_name}"`, as both upload pages derive it. */
  function ObjectKey(id: string, fileName: string): string {
    AssignmentPrefix + id + "_" + fileName
  }

  /** An upload overwrites whatever the bucket held under `key`. */
  function PutObject(objects: Objects, key: string, content: Bytes): Objects {
    objects[key := content]
  }

  /**
   * The derived key is not injective: the uploads ("a", "b_c.pdf") and
   * ("a_b", "c.pdf") are two students' files stored under one object.
   */
  lemma ObjectKeyCollides()
    ensures ObjectKey("a", "b_c.pdf") == ObjectKey("a_b", "c.pdf")
  {
  }

  /** One character of a student ID, with `%` and `_` percent-escaped. */
  function EscapeChar(c: char): string {
    if c == '%' then "%25" else if c == '_' then "%5F" else [c]
  }

  /** A student ID spelled without any `_`, so that the first `_` of a key separates it from the file name. */
  function EscapeId(id: string): (e: string)
    ensures forall i :: 0 <= i < |e| ==> e[i] != '_'
  {
    if |id| == 0 then "" else EscapeChar(id[0]) + EscapeId(id[1..])
  }

  /** Inverse of `EscapeId`. */
  function UnescapeId(e: string): string
    decreases |e|
  {
    if |e| >= 3 && e[..3] == "%25" then "%" + UnescapeId(e[3..])
    else if |e| >= 3 && e[..3] == "%5F" then "_" + UnescapeId(e[3..])
    else if |e| == 0 then ""
    else [e[0]] + UnescapeId(e[1..])
  }

  /** A derived object key in which distinct (student, file) pairs never meet. */
  function SafeObjectKey(id: string, fileName: string): string {
    AssignmentPrefix + EscapeId(id) + "_" + fileName
  }

  lemma {:induction false} UnescapeEscape(id: string)
    ensures UnescapeId(EscapeId(id)) == id
    decreases |id|
  {
    if |id| > 0 {
      UnescapeEscape(id[1..]);
      var rest := EscapeId(id[1..]);
      var e := EscapeId(id);
      assert e == EscapeChar(id[0]) + rest;
      if id[0] == '%' || id[0] == '_' {
        assert e[..3] == EscapeChar(id[0]) && e[3..] == rest;
      } else {
        assert e[0] == id[0] && e[1..] == rest;
        assert |e| >= 3 ==> e[..3][0] == id[0];
      }
      assert id == [id[0]] + id[1..];
    }
  }

  /** Position of the first `_` in `s`, or `|s|` when there is none. */
  function FirstUnderscore(s: string): nat
  {
    if |s| == 0 || s[0] == '_' then 0 else 1 + FirstUnderscore(s[1..])
  }

  lemma {:induction false} FirstUnderscoreEndsPrefix(a: string, x: string)
    requires forall i :: 0 <= i < |a| ==> a[i] != '_'
    ensures FirstUnderscore(a + "_" + x) == |a|
    decreases |a|
  {
    if |a| > 0 {
      FirstUnderscoreEndsPrefix(a[1..], x);
      assert (a + "_" + x)[1..] == a[1..] + "_" + x;
    }
  }

  /** Two `_`-free prefixes followed by `_` split a string the same way. */
  lemma SplitAtFirstUnderscore(a: string, x: string, b: string, y: string)
    requires forall i :: 0 <= i < |a| ==> a[i] != '_'
    requires forall i :: 0 <= i < |b| ==> b[i] != '_'
    requires a + "_" + x == b + "_" + y
    ensures a == b && x == y
  {
    FirstUnderscoreEndsPrefix(a, x);
    FirstUnderscoreEndsPrefix(b, y);
    assert a == (a + "_" + x)[..|a|];
    assert b == (b + "_" + y)[..|b|];
    assert x == (a + "_" + x)[|a| + 1..];
    assert y == (b + "_" + y)[|b| + 1..];
  }

  /** The escaped key identifies the student and the file. */
  lemma SafeObjectKeyInjective(id1: string, name1: string, id2: string, name2: string)
    requires SafeObjectKey(id1, name1) == SafeObjectKey(id2, name2)
    ensures id1 == id2 && name1 == name2
  {
    var p := AssignmentPrefix;
    var k1 := SafeObjectKey(id1, name1);
    var k2 := SafeObjectKey(id2, name2);
    assert k1 == p + (EscapeId(id1) + "_" + name1);
    assert k2 == p + (EscapeId(id2) + "_" + name2);
    assert EscapeId(id1) + "_" + name1 == k1[|p|..];
    assert EscapeId(id2) + "_" + name2 == k2[|p|..];
    SplitAtFirstUnderscore(EscapeId(id1), name1, EscapeId(id2), name2);
    UnescapeEscape(id1);
    UnescapeEscape(id2);
  }
}

=== FILE: performance.dfy ===
/**
 * The dashboard's performance update: merges marks, attendance and status
 * into an existing student item; it never creates one.
 */
module Performance {
  import opened Wrappers
  import opened Values
  import opened RecordStore

  /** The status choices offered by the form. */
  datatype Status = Pass | Fail | NA

  function StatusText(s: Status): string {
    match s
    case Pass => "Pass"
    case Fail => "Fail"
    case NA => "NA"
  }

  /** The five fields the update sets. */
  const PerformanceFields: set<string> := {"Marks", "Attendance", "Status", "Type", "LastUpdated"}

  /** The "Please enter a Student ID" warning; the "No record found" warning; success; the "Error updating performance" error. */
  datatype PerformanceOutcome = MissingId | NoRecord | Updated | UpdateError

  datatype PerformanceResult = PerformanceResult(table: Table, outcome: PerformanceOutcome)

  /** `old.update({...})`: the prior item with the five fields overwritten. */
  function ApplyPerformance(prior: Record, marks: int, attendance: int, status: Status, now: string): Record {
    prior["Marks" := Int(marks)]["Attendance" := Int(attendance)]["Status" := Str(StatusText(status))]
         ["Type" := Str("Performance")]["LastUpdated" := Str(now)]
  }

  /** The Update Performance button; `now` is the timestamp taken at the click. */
  function UpdatePerformance(t: Table, id: string, marks: int, attendance: int, status: Status, now: string,
                             readFails: bool, putFails: bool): (r: PerformanceResult)
    ensures r.outcome == MissingId <==> id == ""
    ensures r.outcome == NoRecord <==> id != "" && !readFails && id !in t
    ensures r.outcome == Updated <==> id != "" && !readFails && id in t && !putFails
    ensures r.outcome != Updated ==> r.table == t
    ensures r.outcome == Updated ==>
      && r.table.Keys == t.Keys
      && (forall k :: k in t && k != id ==> r.table[k] == t[k])
      && r.table[id].Keys == t[id].Keys + PerformanceFields
      && (forall f :: f in t[id] && f !in PerformanceFields ==> r.table[id][f] == t[id][f])
      && r.table[id]["Marks"] == Int(marks)
      && r.table[id]["Attendance"] == Int(attendance)
      && r.table[id]["Status"] == Str(StatusText(status))
      && r.table[id]["Type"] == Str("Performance")
      && r.table[id]["LastUpdated"] == Str(now)
  {
    if id == "" then PerformanceResult(t, MissingId)
    else match GetItem(t, id, readFails)
      case ReadFailed => PerformanceResult(t, UpdateError)
      case Fetched(item) =>
        var prior := ItemOrEmpty(Fetched(item));
        if prior == map[] then PerformanceResult(t, NoRecord)
        else
          var updated := ApplyPerformance(prior, marks, attendance, status, now);
          match PutItem(t, updated, putFails)
          case None => PerformanceResult(t, UpdateError)
          case Some(t') => PerformanceResult(t', Updated)
  }

  /**
   * Merge without loss: reading the student back after an update gives the
   * prior item with exactly the five fields overwritten.
   */
  lemma UpdateThenRead(t: Table, id: string, marks: int, attendance: int, status: Status, now: string)
    requires UpdatePerformance(t, id, marks, attendance, status, now, false, false).outcome == Updated
    ensures var t' := UpdatePerformance(t, id, marks, attendance, status, now, false, false).table;
      GetItem(t', id, false) == Fetched(Some(ApplyPerformance(t[id], marks, attendance, status, now)))
  {
  }

  /** The same update applied twice leaves what one application left. */
  lemma UpdateIdempotent(t: Table, id: string, marks: int, attendance: int, status: Status, now: string)
    requires UpdatePerformance(t, id, marks, attendance, status, now, false, false).outcome == Updated
    ensures var t1 := UpdatePerformance(t, id, marks, attendance, status, now, false, false).table;
      UpdatePerformance(t1, id, marks, attendance, status, now, false, false).table == t1
  {
    var t1 := UpdatePerformance(t, id, marks, attendance, status, now, false, false).table;
    var t2 := UpdatePerformance(t1, id, marks, attendance, status, now, false, false).table;
    assert t2[id] == t1[id];
  }
}

=== FILE: record_store.dfy ===
/**
 * The student table: one item per StudentID, read by key, written by full
 * upsert, listed by scan. Transport failures are a `fails` input.
 */
module RecordStore {
  import opened Wrappers
  import opened Values

  /** The table's primary-key attribute. */
  const KeyField := "StudentID"

  /** Every item sits under its own, non-empty StudentID. */
  predicate WellKeyed(t: map<string, Record>) {
    forall id :: id in t ==> id != "" && KeyField in t[id] && t[id][KeyField] == Str(id)
  }

  /** The table's contents; the key invariant is the table's own guarantee. */
  type Table = t: map<string, Record> | WellKeyed(t) witness map[]

  /** Result of a point read: the read failed, or it returned the item if any. */
  datatype Fetched = ReadFailed | Fetched(item: Option<Record>)

  /**
   * A point read by key. An empty key is refused by the table like a
   * transport error, and a missing item is a normal, empty answer.
   */
  function GetItem(t: Table, id: string, fails: bool): (r: Fetched)
    ensures r.ReadFailed? <==> fails || id == ""
    ensures r.Fetched? ==> (r.item.Some? <==> id in t)
    ensures r.Fetched? && r.item.Some? ==> r.item.value == t[id]
    ensures r.Fetched? && r.item.Some? ==> KeyField in r.item.value && r.item.value[KeyField] == Str(id)
  {
    if fails || id == "" then ReadFailed
    else if id in t then Fetched(Some(t[id]))
    else Fetched(None)
  }

  /** Python's `resp.get("Item", {})`: the fetched item, or an empty dict. */
  function ItemOrEmpty(f: Fetched): Record {
    if f.Fetched? && f.item.Some? then f.item.value else map[]
  }

  /** The key under which an item is stored, if it carries a usable one. */
  function ItemKey(item: Record): Option<string> {
    if KeyField in item && item[KeyField].Str? && item[KeyField].s != "" then Some(item[KeyField].s)
    else None
  }

  /** A full upsert under the item's own key; `None` means nothing was written. */
  function PutItem(t: Table, item: Record, fails: bool): (r: Option<Table>)
    ensures r.Some? <==> !fails && ItemKey(item).Some?
    ensures r.Some? ==> r.value.Keys == t.Keys + {ItemKey(item).value}
    ensures r.Some? ==> r.value[ItemKey(item).value] == item
    ensures r.Some? ==> forall k :: k in t && k != ItemKey(item).value ==> r.value[k] == t[k]
  {
    if fails then None
    else match ItemKey(item)
      case None => None
      case Some(k) => Some(t[k := item])
  }

  /** A read after a successful upsert returns the item written, and every other key reads as before. */
  lemma PutThenGet(t: Table, item: Record, id: string)
    requires PutItem(t, item, false).Some?
    ensures var t' := PutItem(t, item, false).value;
      GetItem(t', id, false) == if id == ItemKey(item).value then Fetched(Some(item)) else GetItem(t, id, false)
  {
  }

  /** No item occurs twice. */
  predicate Distinct(s: seq<Record>) {
    forall i, j :: 0 <= i < j < |s| ==> s[i] != s[j]
  }

  /**
   * `items` is one full scan of `t`, in whatever order the table returns:
   * every element is a stored item, every stored item appears, none twice.
   */
  predicate IsScanOf(t: Table, items: seq<Record>) {
    && IsPageOf(t, items)
    && (forall id :: id in t ==> t[id] in items)
  }

  /**
   * `items` is one page of a scan of `t`: stored items, none twice, but not
   * necessarily all of them.
   */
  predicate IsPageOf(t: Table, items: seq<Record>) {
    && (forall i :: 0 <= i < |items| ==> items[i] in t.Values)
    && Distinct(items)
  }

  /** A scanned item names, in its key attribute, the key it is stored under. */
  lemma ScannedItemKey(t: Table, x: Record) returns (id: string)
    requires x in t.Values
    ensures id in t && t[id] == x && x[KeyField] == Str(id)
  {
    id :| id in t && t[id] == x;
  }
}

=== FILE: risk_predictor.dfy ===
/**
 * The dashboard's risk prediction: read marks and attendance from the
 * student's item, adjust attendance for a medical certificate, ask the
 * classifier, and write the label back into the item.
 */
module RiskPredictor {
  import opened Wrappers
  import opened Values
  import opened RecordStore

  /** Attendance points excused by a medical certificate. */
  const MedicalAllowance := 30

  const SafeLabel := "Safe / Pass"
  const AtRiskLabel := "At Risk / Fail"

  /** `A_real`: attendance less the allowance, floored at zero, when a certificate is given. */
  function AdjustedAttendance(attendance: int, medical: bool): (a: int)
    ensures !medical ==> a == attendance
    ensures medical ==> a >= 0
    ensures medical && attendance >= 0 ==> a <= attendance
    ensures medical && attendance >= MedicalAllowance ==> a == attendance - MedicalAllowance
    ensures medical && attendance <= MedicalAllowance ==> a == 0
  {
    if medical then (if attendance - MedicalAllowance > 0 then attendance - MedicalAllowance else 0)
    else attendance
  }

  /** `med_val`. */
  function MedicalFlag(medical: bool): int {
    if medical then 1 else 0
  }

  /** The classifier's input row, `[marks, A_real, med_val]`, in that order. */
  function Features(marks: int, attendance: int, medical: bool): (row: seq<int>)
    ensures |row| == 3
    ensures row[0] == marks
    ensures row[1] == AdjustedAttendance(attendance, medical)
    ensures row[2] == (if medical then 1 else 0)
  {
    [marks, AdjustedAttendance(attendance, medical), MedicalFlag(medical)]
  }

  /** Class 1 reads as safe; every other output as at risk. */
  function RiskLabel(prediction: int): (s: string)
    ensures s == SafeLabel <==> prediction == 1
    ensures s == AtRiskLabel <==> prediction != 1
  {
    if prediction == 1 then SafeLabel else AtRiskLabel
  }

  /**
   * The outcome shown: the not-found error, the fetch error, the model-load
   * error, the prediction error, or the label with the inputs it was computed from.
   */
  datatype PredictOutcome =
    | NotFound
    | ReadError
    | ModelLoadError
    | PredictionError
    | Predicted(risk: string, marks: int, attendance: int, adjusted: int, medicalFlag: int)

  datatype PredictResult = PredictResult(table: Table, outcome: PredictOutcome)

  /** `float(item.get(field, 0))`. */
  function StoredNumber(rec: Record, field: string): Option<int> {
    ToNumber(GetOr(rec, field, Int(0)))
  }

  /** The item written back: only the risk status and the prediction time change. */
  function WithPrediction(rec: Record, risk: string, now: string): Record {
    rec["RiskStatus" := Str(risk)]["LastPredicted" := Str(now)]
  }

  /** The student is stored and both stored numbers convert with `float()`. */
  predicate Converts(t: Table, id: string) {
    id in t && StoredNumber(t[id], "Marks").Some? && StoredNumber(t[id], "Attendance").Some?
  }

  /**
   * The Predict button. `classify` is the loaded model's `predict` on one row;
   * `loadFails`, `predictFails`, `readFails` and `putFails` say which external
   * step fails; `now` is the timestamp taken at write-back.
   */
  function Predict(t: Table, id: string, medical: bool, classify: seq<int> -> int, now: string,
                   readFails: bool, loadFails: bool, predictFails: bool, putFails: bool): (r: PredictResult)
    ensures !r.outcome.Predicted? ==> r.table == t
    ensures r.outcome == NotFound <==> !readFails && id != "" && id !in t
    ensures r.outcome == ReadError <==> readFails || id == "" || (id in t && !Converts(t, id))
    ensures r.outcome == ModelLoadError <==> !readFails && Converts(t, id) && loadFails
    ensures r.outcome == PredictionError <==>
      !readFails && Converts(t, id) && !loadFails && (predictFails || putFails)
    ensures r.outcome.Predicted? <==> !readFails && Converts(t, id) && !loadFails && !predictFails && !putFails
    ensures r.outcome.Predicted? ==>
      var marks := StoredNumber(t[id], "Marks").value;
      var attendance := StoredNumber(t[id], "Attendance").value;
      && r.outcome == Predicted(RiskLabel(classify(Features(marks, attendance, medical))),
                                marks, attendance, AdjustedAttendance(attendance, medical), MedicalFlag(medical))
      && r.table == t[id := WithPrediction(t[id], r.outcome.risk, now)]
  {
    match GetItem(t, id, readFails)
    case ReadFailed => PredictResult(t, ReadError)
    case Fetched(item) =>
      if item.None? || item.value == map[] then PredictResult(t, NotFound)
      else
        var student := item.value;
        var marksRead := StoredNumber(student, "Marks");
        var attendanceRead := StoredNumber(student, "Attendance");
        if marksRead.None? || attendanceRead.None? then PredictResult(t, ReadError)
        else
          var marks := marksRead.value;
          var attendance := attendanceRead.value;
          var adjusted := AdjustedAttendance(attendance, medical);
          var flag := MedicalFlag(medical);
          if loadFails then PredictResult(t, ModelLoadError)
          else if predictFails then PredictResult(t, PredictionError)
          else
            var risk := RiskLabel(classify([marks, adjusted, flag]));
            match PutItem(t, WithPrediction(student, risk, now), putFails)
            case None => PredictResult(t, PredictionError)
            case Some(t') => PredictResult(t', Predicted(risk, marks, attendance, adjusted, flag))
  }

  /** The write-back touches only the risk status and prediction time of the one student. */
  lemma PredictionFrame(t: Table, id: string, medical: bool, classify: seq<int> -> int, now: string)
    requires Predict(t, id, medical, classify, now, false, false, false, false).outcome.Predicted?
    ensures var t' := Predict(t, id, medical, classify, now, false, false, false, false).table;
      && t'.Keys == t.Keys
      && (forall k :: k in t && k != id ==> t'[k] == t[k])
      && t'[id].Keys == t[id].Keys + {"RiskStatus", "LastPredicted"}
      && (forall f :: f in t[id] && f != "RiskStatus" && f != "LastPredicted" ==> t'[id][f] == t[id][f])
  {
  }

  /**
   * Determinism: the label depends only on the student's stored marks and
   * attendance, the certificate answer and the classifier.
   */
  lemma PredictionDependsOnlyOnInputs(t1: Table, t2: Table, id: string, medical: bool, classify: seq<int> -> int,
                                      now1: string, now2: string)
    requires id in t1 && id in t2
    requires GetOr(t1[id], "Marks", Int(0)) == GetOr(t2[id], "Marks", Int(0))
    requires GetOr(t1[id], "Attendance", Int(0)) == GetOr(t2[id], "Attendance", Int(0))
    ensures Predict(t1, id, medical, classify, now1, false, false, false, false).outcome
         == Predict(t2, id, medical, classify, now2, false, false, false, false).outcome
  {
  }

  /** Worked examples: attendance 20 with a certificate is used as 0, and 90 as 60; without one, [40, 85, 0]. */
  lemma AdjustmentExamples()
    ensures AdjustedAttendance(20, true) == 0
    ensures AdjustedAttendance(90, true) == 60
    ensures Features(40, 85, false) == [40, 85, 0]
  {
  }
}

=== FILE: roster.dfy ===
/**
 * The teacher's roster tab: after listing every item, it counts the students
 * the classifier last labelled safe and at risk.
 */
module Roster {
  import opened Values
  import opened RecordStore
  import opened RiskPredictor

  /** `row.get("RiskStatus") == status`. */
  predicate HasRisk(rec: Record, status: string) {
    "RiskStatus" in rec && rec["RiskStatus"] == Str(status)
  }

  /** `(df.get("RiskStatus") == status).sum()`; zero when no item has the column. */
  function CountLabel(items: seq<Record>, status: string): nat {
    if |items| == 0 then 0
    else (if HasRisk(items[0], status) then 1 else 0) + CountLabel(items[1..], status)
  }

  /** The "No records found yet" info, or the two counts shown under the roster. */
  datatype RosterView = NoRecords | Tally(safe: nat, atRisk: nat)

  /** The roster tab over the items one scan returned. */
  function RosterOf(items: seq<Record>): (v: RosterView)
    ensures v.NoRecords? <==> |items| == 0
    ensures v.Tally? ==> v.safe == CountLabel(items, SafeLabel) && v.atRisk == CountLabel(items, AtRiskLabel)
    ensures v.Tally? ==> v.safe + v.atRisk <= |items|
  {
    if |items| == 0 then NoRecords
    else
      TallyBounded(items);
      Tally(CountLabel(items, SafeLabel), CountLabel(items, AtRiskLabel))
  }

  /** Each item is counted at most once: the two counts never exceed the number of items. */
  lemma {:induction false} TallyBounded(items: seq<Record>)
    ensures CountLabel(items, SafeLabel) + CountLabel(items, AtRiskLabel) <= |items|
    decreases |items|
  {
    if |items| > 0 {
      TallyBounded(items[1..]);
    }
  }

  lemma {:induction false} CountConcat(a: seq<Record>, b: seq<Record>, status: string)
    ensures CountLabel(a + b, status) == CountLabel(a, status) + CountLabel(b, status)
    decreases |a|
  {
    if |a| == 0 {
      assert a + b == b;
    } else {
      assert (a + b)[0] == a[0];
      assert (a + b)[1..] == a[1..] + b;
      CountConcat(a[1..], b, status);
    }
  }

  /** Taking the item at position `i` out of a list. */
  lemma RemoveAt(b: seq<Record>, i: nat, status: string)
    requires i < |b|
    ensures multiset(b) == multiset(b[..i] + b[i + 1..]) + multiset{b[i]}
    ensures CountLabel(b, status) == CountLabel(b[..i] + b[i + 1..], status) + (if HasRisk(b[i], status) then 1 else 0)
  {
    assert b == b[..i] + [b[i]] + b[i + 1..];
    CountConcat(b[..i] + [b[i]], b[i + 1..], status);
    CountConcat(b[..i], [b[i]], status);
    CountConcat(b[..i], b[i + 1..], status);
  }

  /** The counts do not depend on the order in which the scan returns the items. */
  lemma {:induction false} TallyIgnoresOrder(a: seq<Record>, b: seq<Record>, status: string)
    requires multiset(a) == multiset(b)
    ensures CountLabel(a, status) == CountLabel(b, status)
    decreases |a|
  {
    if |a| > 0 {
      var x := a[0];
      assert x in multiset(b);
      var i :| 0 <= i < |b| && b[i] == x;
      RemoveAt(b, i, status);
      var rest := b[..i] + b[i + 1..];
      assert a == [x] + a[1..];
      calc {
        multiset(a[1..]);
        multiset(a) - multiset{x};
        multiset(b) - multiset{x};
        (multiset(rest) + multiset{x}) - multiset{x};
        multiset(rest);
      }
      TallyIgnoresOrder(a[1..], rest, status);
    }
  }

  /** The students whose item carries `status`, read from the table itself. */
  function StudentsWithStatus(t: Table, status: string): set<string> {
    set id | id in t && HasRisk(t[id], status)
  }

  /** The rest of a scan after its first item is a scan of the table without that item's key. */
  lemma ScanTail(t: Table, items: seq<Record>) returns (k: string)
    requires IsScanOf(t, items) && |items| > 0
    ensures k in t && t[k] == items[0]
    ensures IsScanOf(t - {k}, items[1..])
  {
    k := ScannedItemKey(t, items[0]);
    var t': Table := t - {k};
    var tail := items[1..];
    forall i | 0 <= i < |tail|
      ensures tail[i] in t'.Values
    {
      assert tail[i] == items[i + 1] && items[0] != items[i + 1];
      var j := ScannedItemKey(t, tail[i]);
      assert j in t' && t'[j] == tail[i];
    }
    forall id | id in t'
      ensures t'[id] in tail
    {
      assert t[id][KeyField] == Str(id) && t[k][KeyField] == Str(k);
      assert t[id] in items && t[id] != items[0];
      var i :| 0 <= i < |items| && items[i] == t[id];
      assert tail[i - 1] == t[id];
    }
    forall i, j | 0 <= i < j < |tail|
      ensures tail[i] != tail[j]
    {
      assert tail[i] == items[i + 1] && tail[j] == items[j + 1];
    }
  }

  /** Removing one student from the table removes at most that student from a status set. */
  lemma StatusSetWithout(t: Table, k: string, status: string)
    requires k in t
    ensures var rest := StudentsWithStatus(t - {k}, status);
      && k !in rest
      && StudentsWithStatus(t, status) == rest + (if HasRisk(t[k], status) then {k} else {})
  {
  }

  /**
   * Over any full scan, each count is the number of students the table
   * itself holds with that status.
   */
  lemma {:induction false} TallyMatchesTable(t: Table, items: seq<Record>, status: string)
    requires IsScanOf(t, items)
    ensures CountLabel(items, status) == |StudentsWithStatus(t, status)|
    decreases |items|
  {
    if |items| == 0 {
      assert StudentsWithStatus(t, status) == {};
    } else {
      var k := ScanTail(t, items);
      TallyMatchesTable(t - {k}, items[1..], status);
      StatusSetWithout(t, k, status);
    }
  }

  /**
   * The roster over a full scan of a non-empty table shows, for each label,
   * the number of students the table holds with that label.
   */
  lemma RosterCountsTableStudents(t: Table, items: seq<Record>)
    requires IsScanOf(t, items) && |items| > 0
    ensures RosterOf(items) == Tally(|StudentsWithStatus(t, SafeLabel)|, |StudentsWithStatus(t, AtRiskLabel)|)
  {
    TallyMatchesTable(t, items, SafeLabel);
    TallyMatchesTable(t, items, AtRiskLabel);
  }
}

=== FILE: student_views.dfy ===
/**
 * What a student sees: the dashboard's two tabs (assignments and
 * performance, told apart by the item's Type) and the standalone viewer page
 * (every item of the student). All of them filter one scan of the table.
 */
module StudentViews {
  import opened Values
  import opened RecordStore

  /** `i.get("StudentID") == sid`. */
  predicate BelongsTo(rec: Record, sid: string) {
    KeyField in rec && rec[KeyField] == Str(sid)
  }

  /** `i.get("Type") == "Assignment"`. */
  predicate IsAssignment(rec: Record) {
    "Type" in rec && rec["Type"] == Str("Assignment")
  }

  /** The Type condition a listing adds to the StudentID test. */
  datatype TypeFilter = AnyType | OnlyAssignments | ExceptAssignments

  predicate Matches(rec: Record, sid: string, tf: TypeFilter) {
    BelongsTo(rec, sid) &&
    match tf
    case AnyType => true
    case OnlyAssignments => IsAssignment(rec)
    case ExceptAssignments => !IsAssignment(rec)
  }

  /** The list comprehension over the scan: matching items, in scan order. */
  function Select(items: seq<Record>, sid: string, tf: TypeFilter): (r: seq<Record>)
    ensures |r| <= |items|
    ensures forall x :: x in r <==> x in items && Matches(x, sid, tf)
  {
    if |items| == 0 then []
    else if Matches(items[0], sid, tf) then [items[0]] + Select(items[1..], sid, tf)
    else Select(items[1..], sid, tf)
  }

  /** Filtering a concatenation filters each part and keeps their order. */
  lemma {:induction false} SelectConcat(a: seq<Record>, b: seq<Record>, sid: string, tf: TypeFilter)
    ensures Select(a + b, sid, tf) == Select(a, sid, tf) + Select(b, sid, tf)
    decreases |a|
  {
    if |a| == 0 {
      assert a + b == b;
    } else {
      assert (a + b)[0] == a[0];
      assert (a + b)[1..] == a[1..] + b;
      SelectConcat(a[1..], b, sid, tf);
      if Matches(a[0], sid, tf) {
        calc {
          Select(a + b, sid, tf);
          [a[0]] + Select(a[1..] + b, sid, tf);
          [a[0]] + (Select(a[1..], sid, tf) + Select(b, sid, tf));
          ([a[0]] + Select(a[1..], sid, tf)) + Select(b, sid, tf);
        }
      }
    }
  }

  /** Every item of the student lands in exactly one of the two dashboard tabs. */
  lemma {:induction false} TabsPartitionStudentItems(items: seq<Record>, sid: string)
    ensures |Select(items, sid, OnlyAssignments)| + |Select(items, sid, ExceptAssignments)|
         == |Select(items, sid, AnyType)|
    decreases |items|
  {
    if |items| > 0 {
      TabsPartitionStudentItems(items[1..], sid);
    }
  }

  /** Filtering keeps a duplicate-free list duplicate-free. */
  lemma {:induction false} SelectDistinct(items: seq<Record>, sid: string, tf: TypeFilter)
    requires Distinct(items)
    ensures Distinct(Select(items, sid, tf))
    decreases |items|
  {
    if |items| > 0 {
      var rest := Select(items[1..], sid, tf);
      assert Distinct(items[1..]) by {
        forall i, j | 0 <= i < j < |items[1..]|
          ensures items[1..][i] != items[1..][j]
        {
          assert items[1..][i] == items[i + 1] && items[1..][j] == items[j + 1];
        }
      }
      SelectDistinct(items[1..], sid, tf);
      assert items[0] !in items[1..];
      assert items[0] !in rest;
      if Matches(items[0], sid, tf) {
        var r := [items[0]] + rest;
        forall i, j | 0 <= i < j < |r|
          ensures r[i] != r[j]
        {
          if i == 0 {
            assert r[j] == rest[j - 1] && r[j] in rest;
          } else {
            assert r[i] == rest[i - 1] && r[j] == rest[j - 1];
          }
        }
      }
    }
  }

  /**
   * StudentID is the table's key, so the student's filter over a scan finds
   * exactly the student's one item, or nothing when there is none.
   */
  lemma ScanHoldsOneItemPerStudent(t: Table, items: seq<Record>, sid: string)
    requires IsScanOf(t, items)
    ensures Select(items, sid, AnyType) == if sid in t then [t[sid]] else []
  {
    var r := Select(items, sid, AnyType);
    PageHoldsAtMostOneItemPerStudent(t, items, sid);
    if sid in t {
      assert t[sid] in r;
    } else {
      NoMembersMeansEmpty(r);
    }
  }

  /**
   * Even when a scan returns only its first page, the student's filter finds
   * at most one item, and that item is the one stored under the student's ID.
   */
  lemma PageHoldsAtMostOneItemPerStudent(t: Table, items: seq<Record>, sid: string)
    requires IsPageOf(t, items)
    ensures |Select(items, sid, AnyType)| <= 1
    ensures forall x :: x in Select(items, sid, AnyType) ==> sid in t && x == t[sid]
  {
    var r := Select(items, sid, AnyType);
    SelectDistinct(items, sid, AnyType);
    forall x | x in r
      ensures sid in t && x == t[sid]
    {
      var k := ScannedItemKey(t, x);
    }
    if sid in t {
      AtMostOneCopy(r, t[sid]);
    } else {
      NoMembersMeansEmpty(r);
    }
  }

  /** The first two positions of a list hold members of it. */
  lemma LeadingMembers(r: seq<Record>)
    ensures |r| >= 1 ==> r[0] in r
    ensures |r| >= 2 ==> r[1] in r
  {
  }

  lemma AtMostOneCopy(r: seq<Record>, y: Record)
    requires Distinct(r)
    requires forall x :: x in r ==> x == y
    ensures |r| <= 1
  {
    LeadingMembers(r);
  }

  lemma NoMembersMeansEmpty(r: seq<Record>)
    requires forall x :: x in r ==> false
    ensures r == []
  {
    LeadingMembers(r);
  }

  /** One line of a file listing: `f.get("FileName", "Unknown")` and `f.get("FilePath", "")`. */
  datatype FileEntry = FileEntry(fileName: Value, filePath: Value)

  function EntryOf(rec: Record): FileEntry {
    FileEntry(GetOr(rec, "FileName", Str("Unknown")), GetOr(rec, "FilePath", Str("")))
  }

  function Entries(items: seq<Record>): (es: seq<FileEntry>)
    ensures |es| == |items|
    ensures forall i :: 0 <= i < |items| ==> es[i] == EntryOf(items[i])
  {
    seq(|items|, i requires 0 <= i < |items| => EntryOf(items[i]))
  }

  /** The dashboard's assignments tab: the "No assignments found" info, or the files. */
  datatype AssignmentsTab = NoAssignments | Files(entries: seq<FileEntry>)

  function AssignmentsTabView(items: seq<Record>, sid: string): (v: AssignmentsTab)
    ensures v.NoAssignments? <==> forall x :: x in items ==> !(BelongsTo(x, sid) && IsAssignment(x))
    ensures v.Files? ==> v.entries == Entries(Select(items, sid, OnlyAssignments))
  {
    var files := Select(items, sid, OnlyAssignments);
    if |files| == 0 then NoAssignments
    else
      assert files[0] in files;
      Files(Entries(files))
  }

  /** The columns the performance tab shows; the risk status is never among them. */
  const PerformanceColumns: set<string> := {"Marks", "Attendance", "Status", "LastUpdated"}

  /** The dashboard's performance tab: the "No performance data" info, or the rows shown. */
  datatype PerformanceTab = NoPerformance | Rows(rows: seq<Record>)

  function PerformanceTabView(items: seq<Record>, sid: string): (v: PerformanceTab)
    ensures v.NoPerformance? <==> forall x :: x in items ==> !(BelongsTo(x, sid) && !IsAssignment(x))
    ensures v.Rows? ==> |v.rows| == |Select(items, sid, ExceptAssignments)|
    ensures v.Rows? ==> forall i :: 0 <= i < |v.rows| ==>
      && v.rows[i].Keys <= PerformanceColumns
      && (forall f :: f in PerformanceColumns && f in Select(items, sid, ExceptAssignments)[i] ==>
            f in v.rows[i] && v.rows[i][f] == Select(items, sid, ExceptAssignments)[i][f])
  {
    var data := Select(items, sid, ExceptAssignments);
    if |data| == 0 then NoPerformance
    else
      assert data[0] in data;
      Rows(seq(|data|, i requires 0 <= i < |data| => data[i] - (data[i].Keys - PerformanceColumns)))
  }

  /** The standalone viewer: the "enter your ID" warning, the "No assignments found" info, or the count and files. */
  datatype ViewerPage = EnterId | NothingFound | Found(count: nat, entries: seq<FileEntry>)

  /** The View Assignments button of the viewer page; `items` is the scan it performs. */
  function ViewerPageView(items: seq<Record>, sid: string): (v: ViewerPage)
    ensures v == EnterId <==> sid == ""
    ensures v.Found? <==> sid != "" && exists x :: x in items && BelongsTo(x, sid)
    ensures sid != "" ==> (v == NothingFound <==> forall x :: x in items ==> !BelongsTo(x, sid))
    ensures v.Found? ==> v.count == |v.entries| == |Select(items, sid, AnyType)|
    ensures v.Found? ==> v.entries == Entries(Select(items, sid, AnyType))
  {
    if sid == "" then EnterId
    else
      var files := Select(items, sid, AnyType);
      if |files| == 0 then NothingFound
      else
        assert files[0] in files;
        Found(|files|, Entries(files))
  }
}

=== FILE: values.dfy ===
/**
 * Attribute values and records as the student table holds them, and the two
 * Python conversions the portal applies to stored values: `str()` (when the
 * stored password is compared) and `float()` (when marks and attendance are
 * fed to the classifier).
 */
module Values {
  import opened Wrappers

  /** A stored attribute: the table holds strings and integral numbers. */
  datatype Value = Str(s: string) | Int(n: int)

  /** One item of the table: attribute name to value, an open field set. */
  type Record = map<string, Value>

  /** Python's `rec.get(field, default)`. */
  function GetOr(rec: Record, field: string, default: Value): Value {
    if field in rec then rec[field] else default
  }

  predicate IsDigit(c: char) {
    '0' <= c <= '9'
  }

  predicate AllDigits(s: string) {
    |s| > 0 && forall i :: 0 <= i < |s| ==> IsDigit(s[i])
  }

  function DigitChar(d: nat): (c: char)
    requires d < 10
    ensures IsDigit(c)
  {
    ('0' as int + d) as char
  }

  function DigitValue(c: char): nat
    requires IsDigit(c)
  {
    c as int - '0' as int
  }

  /** Decimal spelling of a natural number, most significant digit first. */
  function NatToDecimal(n: nat): string
    decreases n
  {
    if n < 10 then [DigitChar(n)] else NatToDecimal(n / 10) + [DigitChar(n % 10)]
  }

  /** Python's `str()` of an integer. */
  function IntToDecimal(n: int): string {
    if n < 0 then "-" + NatToDecimal(-n) else NatToDecimal(n)
  }

  /** The number a run of decimal digits spells, read from the right. */
  function DecimalValue(s: string): nat
    requires forall i :: 0 <= i < |s| ==> IsDigit(s[i])
    decreases |s|
  {
    if |s| == 0 then 0 else DecimalValue(s[..|s| - 1]) * 10 + DigitValue(s[|s| - 1])
  }

  /**
   * Python's `float()` on a string, for the integral spellings: an optional
   * sign followed by decimal digits. Anything else fails the conversion.
   */
  function ParseInteger(s: string): Option<int> {
    if |s| > 0 && (s[0] == '-' || s[0] == '+') then
      if AllDigits(s[1..]) then
        var m: int := DecimalValue(s[1..]);
        Some(if s[0] == '-' then -m else m)
      else None
    else if AllDigits(s) then Some(DecimalValue(s))
    else None
  }

  /** Python's `str(v)` of a stored value. */
  function ToText(v: Value): string {
    match v
    case Str(s) => s
    case Int(n) => IntToDecimal(n)
  }

  /** Python's `float(v)` of a stored value; `None` is the ValueError. */
  function ToNumber(v: Value): Option<int> {
    match v
    case Int(n) => Some(n)
    case Str(s) => ParseInteger(s)
  }

  /** The decimal spelling of `n` is a run of digits that reads back as `n`. */
  lemma {:induction false} NatDecimalRoundTrip(n: nat)
    ensures AllDigits(NatToDecimal(n))
    ensures DecimalValue(NatToDecimal(n)) == n
    decreases n
  {
    if n >= 10 {
      NatDecimalRoundTrip(n / 10);
      var prefix := NatToDecimal(n / 10);
      var s := prefix + [DigitChar(n % 10)];
      assert s[..|s| - 1] == prefix;
    }
  }

  /** `float(str(n)) == n`: the text of a stored number converts back to it. */
  lemma IntegerTextRoundTrip(n: int)
    ensures ToNumber(Str(ToText(Int(n)))) == Some(n)
  {
    if n < 0 {
      NatDecimalRoundTrip(-n);
      var s := "-" + NatToDecimal(-n);
      assert s[1..] == NatToDecimal(-n);
    } else {
      NatDecimalRoundTrip(n);
      assert NatToDecimal(n)[0] != '-' && NatToDecimal(n)[0] != '+';
    }
  }
}

=== FILE: wrappers.dfy ===
/** Optional values, used for Python's `None` and for "the read gave nothing". */
module Wrappers {

  datatype Option<+T> = None | Some(value: T)
}
